=== FILE: README.md ===
# Temperature Reader, modelled in Dafny

The Temperature Reader is a small Tkinter window. It shows the most recent
temperature in a user-selected text log and refreshes it every three minutes.
The user can change the font size and background colour. A log line has three
`;`-separated fields, and the third is the temperature (`a;b;23.47`).

This project models the part of `temperature_reader.py` that has logic in it:

- `read_latest_temperature`: read the file's lines, keep the last one, strip
  it, split it on `;`, and accept it only with exactly three fields whose third
  parses as a number. Every failure gives `None`.
- The window's handlers as pure transitions over a state record: the path
  (`""` while unset), the label (`NoData`, shown as `--`, or a reading), the
  font size, the background colour setting (`bg_color`), and the number of
  scheduled refreshes not yet run. The handlers are `update_temperature`, `schedule_update`,
  `select_file`, `change_font_size`, `change_bg_color`, and a scheduled
  refresh coming due.

Python's own string and file primitives are modelled too, because the parser's
behaviour depends on them:

- `str.strip()`, using the exact `str.isspace` character set.
- `str.split(';')` and its inverse `';'.join`.
- Universal-newline translation and `readlines()`.

Modules:

- `Wrappers` (`wrappers.dfy`): `Option`.
- `PyStr` (`py_str.dfy`): `strip`, `split`, `join`.
- `TextFile` (`text_file.dfy`): what `open(path, 'r').readlines()` returns.
  `Disk` maps a path to the file's decoded text, or to `None` when it cannot
  be opened, read or decoded.
- `LatestReading` (`latest_reading.dfy`): the parser. `Reading` is an opaque
  type standing for a Python float. `float()` is the parameter
  `parseNum: string -> Option<Reading>`, so every property holds whatever
  number syntax `float` accepts.
- `ReaderApp` (`reader_app.dfy`): the state record, the handlers, events,
  runs, and the invariant every reachable state keeps.

Two behaviours of the code worth stating on their own:

- An update with no file selected returns before `schedule_update`
  (lines 83-86), so it schedules nothing. `UpdateTemperature` therefore
  leaves the pending count alone in that case, and `TimerFires` with no path
  lowers it. `ReachableInv` and `TimerKeepsRunning` show that a scheduled
  refresh never actually meets an empty path.
- Every failure of the parser, from an unreadable file to an unparsable
  number, returns `None` (lines 119-133); the model does not tell failures
  apart either.

A consequence of the code as written, proved in `PendingNeverDrops`: each
manual "Update Temperature" with a file selected, and each selection that is
not cancelled, schedules one more refresh. Meanwhile every already-scheduled refresh keeps re-arming itself. So
the number of live timer chains only grows.

## Model

| member | source | states |
|---|---|---|
| PyStr.LStrip | temperature_reader.py:112 | the leading-whitespace half of `strip`: the result is a suffix of the input, everything dropped is `isspace` whitespace, and the result does not start with whitespace |
| PyStr.RStrip | temperature_reader.py:112 | the trailing half of `strip`: a prefix of the input, only whitespace dropped, and the result does not end with whitespace |
| PyStr.Strip | temperature_reader.py:112 | `line.strip()`: the result neither starts nor ends with whitespace, and it is empty exactly when the line is all whitespace |
| PyStr.StripDecomposes | temperature_reader.py:112 | the line is the stripped result with only whitespace before and after it |
| PyStr.LStripSkips | temperature_reader.py:112 | any all-whitespace prefix in front of text that starts with a non-space is removed exactly |
| PyStr.RStripSkips | temperature_reader.py:112 | any all-whitespace suffix after text that ends with a non-space is removed exactly |
| PyStr.StripUnique | temperature_reader.py:112 | the stripped line is determined by the decomposition whitespace / trimmed core / whitespace |
| PyStr.StripIdempotent | temperature_reader.py:112 | stripping a stripped line changes nothing |
| PyStr.Split | temperature_reader.py:113 | `split(';')` always returns at least one field, one more field than there are separators, and no field contains the separator |
| PyStr.SplitJoin | temperature_reader.py:113 | joining the split fields with the separator gives back the line |
| PyStr.SplitPrefix | temperature_reader.py:113 | separator-free text in front of a string joins onto that string's first field |
| PyStr.JoinSplit | temperature_reader.py:113 | splitting a join of at least one separator-free field gives back exactly those fields |
| PyStr.SplitThree | temperature_reader.py:113-114 | `a;b;c` with separator-free parts splits into exactly the three fields `a`, `b`, `c` |
| TextFile.TranslateNewlines | temperature_reader.py:108 | text-mode reading: no carriage return survives, the text never grows, and text without carriage returns is unchanged |
| TextFile.TranslateAppend | temperature_reader.py:108 | text not ending in a carriage return translates independently of what follows, so the translation goes line break by line break |
| TextFile.TranslatePieces | temperature_reader.py:108 | `\r\n`, a lone `\r` and `\n` each become one `\n`, and every other character is kept; with `TranslateAppend` this fixes the translation of every text |
| TextFile.LoneCarriageReturn | temperature_reader.py:108 | a carriage return not followed by a line feed becomes a line feed of its own |
| TextFile.ReadLines | temperature_reader.py:109 | `readlines()`: no lines exactly when the text is empty; every line is non-empty, has a line feed only at its end, and every line but the last is terminated |
| TextFile.ConcatReadLines | temperature_reader.py:109 | putting the lines back together gives the file's text |
| TextFile.ReadLinesPrepend | temperature_reader.py:109 | a terminated line at the front of the text is the first line read |
| TextFile.ReadLinesSingle | temperature_reader.py:109 | text with no line feed is read as exactly one line |
| TextFile.ReadLinesConcat | temperature_reader.py:109 | well-formed lines, concatenated and read back, come back unchanged |
| TextFile.FileLines | temperature_reader.py:107-109 | the lines are absent exactly when the file cannot be read; present lines are well formed, empty exactly for an empty file, and make up the translated text |
| LatestReading.Fields | temperature_reader.py:112-113 | the fields of a line number one more than the separators in the stripped line, and joined back they give the stripped line |
| LatestReading.ReadLatest | temperature_reader.py:110-124 | an unreadable file or a file with zero lines gives no reading; a reading comes only from a stripped last line with exactly two separators, and it is the parse of that line's third field |
| LatestReading.ReadLatestTemperature | temperature_reader.py:105-133 | every open, read or decode failure gives no reading rather than an error, an empty file gives none, and a reading implies a readable non-empty file |
| LatestReading.FileOfLines | temperature_reader.py:107-124 | for any file holding well-formed lines without carriage returns, the reading from disk equals the reading of exactly those lines |
| LatestReading.LastLineDecides | temperature_reader.py:112 | two non-empty files with the same last line give the same result |
| LatestReading.EarlierLinesIgnored | temperature_reader.py:109-112 | earlier lines can be dropped without changing the result |
| LatestReading.WrongFieldCount | temperature_reader.py:112-124 | a stripped last line with other than two separators (other than three fields) gives no reading |
| LatestReading.BlankLastLine | temperature_reader.py:112-124 | a blank or whitespace-only last line gives no reading, because it splits into one empty field |
| LatestReading.ThreeFields | temperature_reader.py:113-122 | a stripped last line `a;b;c` gives exactly the parse of `c`: that value when it parses, no reading when it does not |
| LatestReading.ThreeFieldsPadded | temperature_reader.py:112-122 | the same for a raw last line that is `a;b;c` surrounded by whitespace such as its line feed |
| LatestReading.UnparsableNumber | temperature_reader.py:114-122 | a stripped last line `a;b;c` with separator-free parts whose `c` does not parse gives no reading |
| LatestReading.ExampleValidLine | temperature_reader.py:112-118 | a last line `a;b;12.34` reads as the parse of `12.34`, whatever lines precede it |
| LatestReading.ExampleTwoLineFile | temperature_reader.py:107-118 | a file holding `x;y;10.0` and `x;y;20.5`, read from disk, gives the parse of `20.5` |
| ReaderApp.Init | temperature_reader.py:33-49 | the new window keeps the invariant, has no path, shows `--`, has font size 10 (applied to the label at line 49) and the colour setting `white` (line 39, not applied to the label or window until a colour is chosen), and has no refresh scheduled |
| ReaderApp.ScheduleUpdate | temperature_reader.py:101-103 | one more refresh pending, nothing else changes |
| ReaderApp.UpdateTemperature | temperature_reader.py:80-99 | no path: select-a-file error, state unchanged, nothing scheduled; with a path: label is the current reading or `--`, an error exactly when `--` is shown, never the select-a-file error, exactly one refresh scheduled; path, font size and colour always unchanged |
| ReaderApp.SelectFile | temperature_reader.py:72-78 | a cancelled dialog changes nothing and raises nothing; a chosen file becomes the path, the label is read from it at once, the read-failed error is raised exactly when `--` is shown (never the select-a-file error), one refresh is scheduled, style unchanged |
| ReaderApp.TimerFires | temperature_reader.py:80-103 | a due refresh with a path re-arms (pending count unchanged), shows the file's current reading or `--`, and raises the read-failed error exactly when `--` is shown, never the select-a-file error; without a path it raises the select-a-file error, keeps the label, and the count drops by one; path, font size and colour never change |
| ReaderApp.ChangeFontSize | temperature_reader.py:135-141 | a cancelled prompt changes nothing; an answer becomes the font size; nothing but the font size changes |
| ReaderApp.ChangeBgColor | temperature_reader.py:143-150 | a cancelled prompt or an empty answer changes nothing; any other answer becomes the colour; nothing but the colour changes |
| ReaderApp.Apply | temperature_reader.py:63-66 | every menu command and due refresh keeps the invariant (font size at least one, a refresh pending only with a path) |
| ReaderApp.Run | temperature_reader.py:72-150 | any sequence of possible events keeps the invariant |
| ReaderApp.ReachableInv | temperature_reader.py:37-141 | every state reachable from the new window has font size at least one and a path whenever a refresh is pending |
| ReaderApp.TimerKeepsRunning | temperature_reader.py:80-103 | in a reachable state a due refresh raises no select-a-file error and re-arms, so the timer never stops once started |
| ReaderApp.PendingNeverDrops | temperature_reader.py:72-103 | in a reachable state no event lowers the pending count; a manual refresh with a path, or a new selection, raises it by exactly one |
| ReaderApp.PathStaysSet | temperature_reader.py:72-86 | once a file is selected the path never becomes unset |
| ReaderApp.SelectionForgetsPrevious | temperature_reader.py:72-99 | after a selection the label and error depend only on the chosen file, not on what was shown before |
| ReaderApp.RefreshShows | temperature_reader.py:89-96 | with a file selected the label text is the rendering of the file's reading and no dialog appears, or it is `--` with the "Failed to read temperature data." dialog |
| ReaderApp.RefreshWithoutFileShows | temperature_reader.py:82-86 | with no file selected the "Please select a file first" dialog appears and the label text stays as it was |
| ReaderApp.StyleIndependent | temperature_reader.py:135-150 | the style setters change neither path, label nor pending count, raise no error dialog, and each leaves the other style field alone |

## Left out

- Widget, menu and window construction (`create_widgets`, `create_menu`, the `__main__` block, window geometry, the Exit command): toolkit plumbing with no logic.
- The file dialog and the `askinteger`/`askstring` prompts: toolkit calls. Their answers are inputs. The file dialog gives `""` when cancelled (the empty tuple it may also return is just as falsy). `askinteger` gives `None` or an integer of at least one, as its `minvalue=1` enforces. `askstring` gives `None` or a string. The prompts' initial values only affect what the dialog shows.
- `float()` and the `:.2f` formatting: floating-point numerics. `float` is the `parseNum` parameter and the rendering is the `format` parameter of `LabelText`; the label shows `--` for no reading.
- Real file I/O, text decoding, and which exception is raised: `Disk` gives the decoded text or `None`, and every exception kind collapses to "no reading", as all of them do at lines 125-133.
- `root.after` timing and the 180 000 ms interval: a scheduled refresh is only counted (`pending`), not timed. The event sequence fixes one order of callbacks and menu commands; real time and concurrency are not modelled.
- `print` diagnostics (lines 121, 123, 126, 129, 132) and the message boxes: only which error dialog is raised is modelled (`ErrorDialog`, with its text in `Message`).
- ReaderApp.ChangeBgColor: Tk's check of colour names, and the `TclError` it raises for a name it rejects at line 149, are not modelled. The model, like line 148, stores any non-empty answer as the colour; the window would then keep showing the old colour.
- ReaderApp.Init: the background shown before the first accepted colour change is Tk's default, since `__init__` only stores `white` as the setting and never applies it; what the window shows is not modelled, only the stored setting.
- ReaderApp.ChangeFontSize: Tk's limit on font sizes, and the `TclError` it may raise at line 141 for a size too large for a machine integer, are not modelled. The model, like line 140, stores any answer of at least one as the font size; the label would then keep showing the old size.
- The Tk variable behind the path (`StringVar`): modelled as a plain string field.

=== FILE: latest_reading.dfy ===
/**
 The latest-reading parser of the temperature reader: take the lines of the
 log file, keep only the last one, strip it, split it on `;`, and accept it
 only when it has exactly three fields whose third parses as a number.
 Every failure, from an unreadable file to an unparsable number, yields
 `None`; nothing is raised to the caller.
 */
module LatestReading {
  import opened Wrappers
  import opened PyStr
  import TextFile

  /** A temperature value (a Python float); its numerics are not modelled. */
  type Reading

  /** Python's `float(text)`: `Some(v)` on success, `None` where `float`
      raises `ValueError`. Left uninterpreted: every model member takes it as
      a parameter, so every property holds whatever the number syntax is. */
  type NumberParser = string -> Option<Reading>

  /** The field separator of a log line. */
  const Separator: char := ';'

  /** The number of fields a valid log line has; the temperature is the last. */
  const FieldCount: nat := 3

  function LastLine(lines: seq<string>): string
    requires |lines| > 0
  {
    lines[|lines| - 1]
  }

  /** The fields of a log line: whitespace stripped from the whole line, then
      split on the separator. There is one field more than the stripped line
      has separators, and the fields joined back give the stripped line. */
  function Fields(line: string): (parts: seq<string>)
    ensures |parts| == Count(Strip(line), Separator) + 1
    ensures Join(parts, Separator) == Strip(line)
  {
    SplitJoin(Strip(line), Separator);
    Split(Strip(line), Separator)
  }

  /** `read_latest_temperature` on the lines of an opened file (`None`: it
      could not be opened or read). A reading is produced only from a
      readable, non-empty file whose stripped last line holds exactly two
      separators, and it is then the parse of that line's third field. */
  function ReadLatest(file: Option<seq<string>>, parseNum: NumberParser): (r: Option<Reading>)
    ensures file.None? ==> r.None?
    ensures file == Some([]) ==> r.None?
    ensures r.Some? ==> && file.Some? && |file.value| > 0
                        && Count(Strip(LastLine(file.value)), Separator) == FieldCount - 1
                        && r == parseNum(Fields(LastLine(file.value))[FieldCount - 1])
  {
    match file
    case None => None
    case Some(lines) =>
      if |lines| > 0 then
        var parts := Fields(LastLine(lines));
        if |parts| == FieldCount then parseNum(parts[FieldCount - 1]) else None
      else
        None
  }

  /** `read_latest_temperature(path)` against a file system: open and read
      the file, then parse its last line. Unreadable or empty files give no
      reading. */
  function ReadLatestTemperature(disk: TextFile.Disk, path: string, parseNum: NumberParser): (r: Option<Reading>)
    ensures disk(path).None? ==> r.None?
    ensures disk(path) == Some("") ==> r.None?
    ensures r.Some? ==> disk(path).Some? && disk(path).value != ""
  {
    ReadLatest(TextFile.FileLines(disk, path), parseNum)
  }

  /** For a file holding well-formed lines without carriage returns, the
      reading from disk is the reading of exactly those lines. */
  lemma FileOfLines(disk: TextFile.Disk, path: string, lines: seq<string>, parseNum: NumberParser)
    requires TextFile.WellFormed(lines) && '\r' !in TextFile.Concat(lines)
    requires disk(path) == Some(TextFile.Concat(lines))
    ensures ReadLatestTemperature(disk, path, parseNum) == ReadLatest(Some(lines), parseNum)
  {
    TextFile.ReadLinesConcat(lines);
  }

  /** Only the last line matters: two files with the same last line give the
      same result, whatever comes before it. */
  lemma LastLineDecides(a: seq<string>, b: seq<string>, parseNum: NumberParser)
    requires |a| > 0 && |b| > 0 && LastLine(a) == LastLine(b)
    ensures ReadLatest(Some(a), parseNum) == ReadLatest(Some(b), parseNum)
  {
  }

  /** Earlier lines can be dropped without changing the result. */
  lemma EarlierLinesIgnored(earlier: seq<string>, last: string, parseNum: NumberParser)
    ensures ReadLatest(Some(earlier + [last]), parseNum) == ReadLatest(Some([last]), parseNum)
  {
    LastLineDecides(earlier + [last], [last], parseNum);
  }

  /** A stripped last line with other than two separators (so other than
      three fields) gives no reading. */
  lemma WrongFieldCount(lines: seq<string>, parseNum: NumberParser)
    requires |lines| > 0
    requires Count(Strip(LastLine(lines)), Separator) != FieldCount - 1
    ensures ReadLatest(Some(lines), parseNum).None?
  {
  }

  /** A blank or whitespace-only last line strips to the empty string, which
      splits into one empty field, so it gives no reading. */
  lemma BlankLastLine(lines: seq<string>, parseNum: NumberParser)
    requires |lines| > 0 && AllSpace(LastLine(lines))
    ensures ReadLatest(Some(lines), parseNum).None?
  {
    assert Strip(LastLine(lines)) == "";
  }

  /** A last line that strips to `a;b;c`, none of the three holding a
      separator, gives exactly the parse of `c`: a reading when `c` parses,
      none when it does not. */
  lemma {:induction false} ThreeFields(lines: seq<string>, a: string, b: string, c: string,
                                       parseNum: NumberParser)
    requires |lines| > 0
    requires Separator !in a && Separator !in b && Separator !in c
    requires Strip(LastLine(lines)) == a + [Separator] + b + [Separator] + c
    ensures ReadLatest(Some(lines), parseNum) == parseNum(c)
  {
    SplitThree(a, b, c, Separator);
    assert Fields(LastLine(lines)) == [a, b, c];
  }

  /** A stripped last line `a;b;c` whose third field `c` does not parse
      gives no reading, although it has the right number of fields. */
  lemma UnparsableNumber(lines: seq<string>, a: string, b: string, c: string,
                         parseNum: NumberParser)
    requires |lines| > 0
    requires Separator !in a && Separator !in b && Separator !in c
    requires Strip(LastLine(lines)) == a + [Separator] + b + [Separator] + c
    requires parseNum(c).None?
    ensures ReadLatest(Some(lines), parseNum).None?
  {
    ThreeFields(lines, a, b, c, parseNum);
  }

  /** The same on the raw last line: a line that is `a;b;c` surrounded by
      whitespace (its line feed, say) gives exactly the parse of `c`. */
  lemma ThreeFieldsPadded(lines: seq<string>, pre: string, a: string, b: string, c: string,
                          post: string, parseNum: NumberParser)
    requires |lines| > 0
    requires Separator !in a && Separator !in b && Separator !in c
    requires AllSpace(pre) && AllSpace(post) && Trimmed(a + [Separator] + b + [Separator] + c)
    requires LastLine(lines) == pre + (a + [Separator] + b + [Separator] + c) + post
    ensures ReadLatest(Some(lines), parseNum) == parseNum(c)
  {
    StripUnique(pre, a + [Separator] + b + [Separator] + c, post);
    ThreeFields(lines, a, b, c, parseNum);
  }

  /** A last line `a;b;12.34` reads as `12.34`. */
  lemma ExampleValidLine(earlier: seq<string>, parseNum: NumberParser)
    ensures ReadLatest(Some(earlier + ["a;b;12.34"]), parseNum) == parseNum("12.34")
  {
    var lines := earlier + ["a;b;12.34"];
    assert LastLine(lines) == "" + ("a" + [Separator] + "b" + [Separator] + "12.34") + "";
    ThreeFieldsPadded(lines, "", "a", "b", "12.34", "", parseNum);
  }

  /** End to end through the file system: a file holding the two lines
      `x;y;10.0` and `x;y;20.5` reads as `20.5`, the first line ignored. */
  lemma ExampleTwoLineFile(disk: TextFile.Disk, path: string, first: string, second: string,
                           parseNum: NumberParser)
    requires first == "x;y;10.0\n" && second == "x;y;20.5\n"
    requires disk(path) == Some(first + second)
    ensures ReadLatestTemperature(disk, path, parseNum) == parseNum("20.5")
  {
    assert '\r' !in first + second;
    assert TextFile.ReadLines(first + second) == [first, second] by {
      assert second + "" == second;
      TextFile.ReadLinesPrepend(second, "");
      TextFile.ReadLinesPrepend(first, second);
    }
    var lines := [first, second];
    assert LastLine(lines) == "" + ("x" + [Separator] + "y" + [Separator] + "20.5") + "\n";
    ThreeFieldsPadded(lines, "", "x", "y", "20.5", "\n", parseNum);
  }
}

=== FILE: py_str.dfy ===
/**
 The three Python string builtins the temperature parser relies on:
 `str.isspace` (per character), `str.strip()` with no argument, and
 `str.split(sep)` with a one-character separator, together with `sep.join`,
 which is the inverse of `split`.
 */
module PyStr {

  /** The characters for which Python's `str.isspace()` is true: the ASCII
      controls TAB..CR and FS..US, SPACE, NEL, NO-BREAK SPACE, OGHAM SPACE MARK,
      EN QUAD..HAIR SPACE, LINE/PARAGRAPH SEPARATOR, NARROW NO-BREAK SPACE,
      MEDIUM MATHEMATICAL SPACE and IDEOGRAPHIC SPACE. */
  predicate IsSpace(c: char) {
    || c == ' '
    || ('\t' <= c <= '\r')
    || ('\U{1c}' <= c <= '\U{1f}')
    || c == '\U{85}'
    || c == '\U{a0}'
    || c == '\U{1680}'
    || ('\U{2000}' <= c <= '\U{200a}')
    || c == '\U{2028}'
    || c == '\U{2029}'
    || c == '\U{202f}'
    || c == '\U{205f}'
    || c == '\U{3000}'
  }

  predicate AllSpace(s: string) {
    forall i :: 0 <= i < |s| ==> IsSpace(s[i])
  }

  /** True when `s` neither starts nor ends with whitespace. */
  predicate Trimmed(s: string) {
    s == [] || (!IsSpace(s[0]) && !IsSpace(s[|s| - 1]))
  }

  /** Leading whitespace removed: what is left is a suffix of `s`, everything
      dropped is whitespace, and what is left does not start with whitespace. */
  function LStrip(s: string): (r: string)
    ensures |r| <= |s| && r == s[|s| - |r|..]
    ensures forall i :: 0 <= i < |s| - |r| ==> IsSpace(s[i])
    ensures r == [] || !IsSpace(r[0])
  {
    if |s| > 0 && IsSpace(s[0]) then LStrip(s[1..]) else s
  }

  /** Trailing whitespace removed: the mirror image of `LStrip`. */
  function RStrip(s: string): (r: string)
    ensures |r| <= |s| && r == s[..|r|]
    ensures forall i :: |r| <= i < |s| ==> IsSpace(s[i])
    ensures r == [] || !IsSpace(r[|r| - 1])
  {
    if |s| > 0 && IsSpace(s[|s| - 1]) then RStrip(s[..|s| - 1]) else s
  }

  /** Python's `s.strip()`: the result neither starts nor ends with
      whitespace, and it is empty exactly when `s` is all whitespace.
      `StripDecomposes` shows that `s` is the result surrounded by whitespace,
      and `StripUnique` that this decomposition determines the result. */
  function Strip(s: string): (r: string)
    ensures Trimmed(r)
    ensures r == [] <==> AllSpace(s)
  {
    var l := LStrip(s);
    var r := RStrip(l);
    StripFacts(s, l, r);
    r
  }

  lemma StripFacts(s: string, l: string, r: string)
    requires l == LStrip(s) && r == RStrip(l)
    ensures Trimmed(r)
    ensures r == [] <==> AllSpace(s)
  {
    var k := |s| - |l|;
    if r != [] {
      assert r[0] == l[0] == s[k];
    }
  }

  /** `s` is the stripped result with only whitespace on either side. */
  lemma StripDecomposes(s: string)
    ensures exists k :: && 0 <= k <= |s| - |Strip(s)|
                        && s[k..k + |Strip(s)|] == Strip(s)
                        && AllSpace(s[..k]) && AllSpace(s[k + |Strip(s)|..])
  {
    var l := LStrip(s);
    var r := RStrip(l);
    var k := |s| - |l|;
    assert r == Strip(s);
    StripAt(s, l, r, k);
    assert 0 <= k <= |s| - |r| && s[k..k + |r|] == r && AllSpace(s[..k]) && AllSpace(s[k + |r|..]);
  }

  lemma StripAt(s: string, l: string, r: string, k: int)
    requires |l| <= |s| && l == s[|s| - |l|..] && k == |s| - |l|
    requires forall i :: 0 <= i < k ==> IsSpace(s[i])
    requires |r| <= |l| && r == l[..|r|]
    requires forall i :: |r| <= i < |l| ==> IsSpace(l[i])
    ensures 0 <= k <= |s| - |r| && s[k..k + |r|] == r
    ensures AllSpace(s[..k]) && AllSpace(s[k + |r|..])
  {
    assert s[k..k + |r|] == r;
    forall i | k + |r| <= i < |s| ensures IsSpace(s[i]) {
      assert s[i] == s[k..][i - k];
      assert IsSpace(l[i - k]);
    }
    AllSpaceSlice(s, 0, k);
    AllSpaceSlice(s, k + |r|, |s|);
    assert s[..k] == s[0..k];
    assert s[k + |r|..] == s[k + |r|..|s|];
  }

  lemma AllSpaceSlice(s: string, lo: int, hi: int)
    requires 0 <= lo <= hi <= |s|
    requires forall i :: lo <= i < hi ==> IsSpace(s[i])
    ensures AllSpace(s[lo..hi])
  {
    assert forall i :: 0 <= i < hi - lo ==> s[lo..hi][i] == s[lo + i];
  }

  /** Removing leading whitespace from `pre + rest` gives `rest` when `pre` is
      all whitespace and `rest` does not start with whitespace. */
  lemma {:induction false} LStripSkips(pre: string, rest: string)
    requires AllSpace(pre)
    requires rest == [] || !IsSpace(rest[0])
    ensures LStrip(pre + rest) == rest
  {
    if pre == [] {
      assert pre + rest == rest;
    } else {
      assert (pre + rest)[0] == pre[0];
      assert (pre + rest)[1..] == pre[1..] + rest;
      LStripSkips(pre[1..], rest);
    }
  }

  /** Mirror image of `LStripSkips`. */
  lemma {:induction false} RStripSkips(rest: string, post: string)
    requires AllSpace(post)
    requires rest == [] || !IsSpace(rest[|rest| - 1])
    ensures RStrip(rest + post) == rest
  {
    if post == [] {
      assert rest + post == rest;
    } else {
      var s := rest + post;
      assert s[|s| - 1] == post[|post| - 1];
      assert s[..|s| - 1] == rest + post[..|post| - 1];
      RStripSkips(rest, post[..|post| - 1]);
    }
  }

  /** The result of `strip` is determined by the decomposition of its
      argument: whitespace, a trimmed core, whitespace. */
  lemma StripUnique(pre: string, core: string, post: string)
    requires AllSpace(pre) && AllSpace(post) && Trimmed(core)
    ensures Strip(pre + core + post) == core
  {
    if core == [] {
      var s := pre + core + post;
      assert AllSpace(s) by {
        forall i | 0 <= i < |s| ensures IsSpace(s[i]) {
          if i < |pre| { assert s[i] == pre[i]; } else { assert s[i] == post[i - |pre|]; }
        }
      }
    } else {
      assert pre + core + post == pre + (core + post);
      LStripSkips(pre, core + post);
      RStripSkips(core, post);
    }
  }

  /** `strip` is idempotent. */
  lemma StripIdempotent(s: string)
    ensures Strip(Strip(s)) == Strip(s)
  {
    var r := Strip(s);
    assert AllSpace([]);
    assert r == [] + r + [];
    StripUnique([], r, []);
  }

  /** Number of occurrences of `c` in `s`. */
  function Count(s: string, c: char): nat {
    if s == [] then 0 else (if s[0] == c then 1 else 0) + Count(s[1..], c)
  }

  /** Python's `s.split(sep)`: always at least one field, no field contains
      the separator, and there is one field more than there are separators.
      `SplitJoin` and `JoinSplit` show that it is the inverse of `Join`. */
  function Split(s: string, sep: char): (r: seq<string>)
    ensures |r| >= 1
    ensures |r| == Count(s, sep) + 1
    ensures forall i :: 0 <= i < |r| ==> sep !in r[i]
  {
    if s == [] then [""]
    else
      var rest := Split(s[1..], sep);
      if s[0] == sep then [""] + rest
      else [[s[0]] + rest[0]] + rest[1..]
  }

  /** Python's `sep.join(parts)` for a one-character separator. */
  function Join(parts: seq<string>, sep: char): string {
    if |parts| == 0 then ""
    else if |parts| == 1 then parts[0]
    else parts[0] + [sep] + Join(parts[1..], sep)
  }

  /** Joining the fields of a split gives back the original string. */
  lemma {:induction false} SplitJoin(s: string, sep: char)
    ensures Join(Split(s, sep), sep) == s
  {
    if s != [] {
      var rest := Split(s[1..], sep);
      SplitJoin(s[1..], sep);
      if s[0] == sep {
        assert ([""] + rest)[1..] == rest;
        assert s == [sep] + s[1..];
      } else {
        var r := [[s[0]] + rest[0]] + rest[1..];
        assert r[1..] == rest[1..];
        if |rest| == 1 {
          assert s == [s[0]] + s[1..];
        } else {
          assert Join(rest, sep) == rest[0] + [sep] + Join(rest[1..], sep);
          assert s == [s[0]] + s[1..];
        }
      }
    }
  }

  /** Splitting `a + t`, where `a` holds no separator, glues `a` onto the
      first field of `t`. */
  lemma {:induction false} SplitPrefix(a: string, t: string, sep: char)
    requires sep !in a
    ensures Split(a + t, sep) == [a + Split(t, sep)[0]] + Split(t, sep)[1..]
  {
    var st := Split(t, sep);
    if a == [] {
      assert a + t == t;
      assert a + st[0] == st[0];
      assert st == [st[0]] + st[1..];
    } else {
      assert (a + t)[0] == a[0];
      assert (a + t)[1..] == a[1..] + t;
      SplitPrefix(a[1..], t, sep);
      assert [a[0]] + (a[1..] + st[0]) == a + st[0];
    }
  }

  /** Splitting a join of separator-free fields gives back those fields. */
  lemma {:induction false} JoinSplit(parts: seq<string>, sep: char)
    requires |parts| >= 1
    requires forall i :: 0 <= i < |parts| ==> sep !in parts[i]
    ensures Split(Join(parts, sep), sep) == parts
  {
    if |parts| == 1 {
      SplitPrefix(parts[0], "", sep);
      assert parts[0] + "" == parts[0];
      assert parts == [parts[0]];
    } else {
      var tail := Join(parts[1..], sep);
      JoinSplit(parts[1..], sep);
      assert parts[0] + [sep] + tail == parts[0] + ([sep] + tail);
      SplitPrefix(parts[0], [sep] + tail, sep);
      assert ([sep] + tail)[1..] == tail;
      var st := Split([sep] + tail, sep);
      assert st == [""] + parts[1..];
      assert st[0] == "" && st[1..] == parts[1..];
      assert parts[0] + st[0] == parts[0];
      assert parts == [parts[0]] + parts[1..];
    }
  }

  /** Three separator-free fields joined by the separator split back into
      exactly those three fields. */
  lemma SplitThree(a: string, b: string, c: string, sep: char)
    requires sep !in a && sep !in b && sep !in c
    ensures Split(a + [sep] + b + [sep] + c, sep) == [a, b, c]
  {
    var parts := [a, b, c];
    assert parts[1..] == [b, c];
    assert parts[1..][1..] == [c];
    assert Join(parts[1..][1..], sep) == c;
    assert Join(parts[1..], sep) == b + [sep] + c;
    assert Join(parts, sep) == a + [sep] + (b + [sep] + c);
    assert a + [sep] + (b + [sep] + c) == a + [sep] + b + [sep] + c;
    JoinSplit(parts, sep);
  }
}

=== FILE: reader_app.dfy ===
/**
 The display and refresh logic of the temperature reader window, as pure
 transitions over an immutable state record. The toolkit's prompts become
 inputs of the transitions, the file system is a `Disk`, and the timer is a
 count of scheduled `update_temperature` callbacks not yet run.
 */
module ReaderApp {
  import opened Wrappers
  import opened LatestReading
  import TextFile

  /** Defaults set when the window is built. */
  const DefaultFontSize: int := 10
  const DefaultBgColor: string := "white"

  /** Text the label shows when there is no reading. */
  const NoDataText: string := "--"

  /** What the temperature label shows. */
  datatype Label = NoData | Shown(reading: Reading)

  /** The two error dialogs the refresh can raise. */
  datatype ErrorDialog = SelectFileFirst | ReadFailed

  function Message(e: ErrorDialog): string {
    match e
    case SelectFileFirst => "Please select a file first"
    case ReadFailed => "Failed to read temperature data."
  }

  /** The label text, given the two-decimal rendering of a reading. */
  function LabelText(l: Label, format: Reading -> string): string {
    match l
    case NoData => NoDataText
    case Shown(v) => format(v)
  }

  /** The window state: selected path (`""` while unset), label, font size,
      background colour setting (`bg_color`), and the number of scheduled
      refreshes not yet run. */
  datatype State = State(path: string, display: Label, fontSize: int, bgColor: string, pending: nat)

  /** The state after a handler, and the error dialog it raised, if any. */
  datatype Outcome = Outcome(state: State, error: Option<ErrorDialog>)

  /** What every reachable state satisfies: the font size is at least one,
      and a refresh is only ever scheduled once a file has been selected. */
  predicate Inv(s: State) {
    s.fontSize >= 1 && (s.pending > 0 ==> s.path != "")
  }

  /** The state of a freshly built window: nothing selected, `--` shown,
      the default font size and colour setting, no refresh scheduled. */
  function Init(): (s: State)
    ensures Inv(s)
    ensures s.path == "" && s.display == NoData && s.pending == 0
    ensures s.fontSize == DefaultFontSize && s.bgColor == DefaultBgColor
  {
    State("", NoData, DefaultFontSize, DefaultBgColor, 0)
  }

  /** The label a reading attempt leads to. */
  function LabelFor(reading: Option<Reading>): Label {
    match reading
    case Some(v) => Shown(v)
    case None => NoData
  }

  /** `schedule_update`: one more refresh pending, nothing else changes. */
  function ScheduleUpdate(s: State): (t: State)
    ensures t.pending == s.pending + 1
    ensures t.(pending := s.pending) == s
  {
    s.(pending := s.pending + 1)
  }

  /** `update_temperature`. With no file selected it raises the select-a-file
      error and changes nothing, so in particular schedules nothing. With a
      file it shows the file's current reading, or `--` together with the
      read-failed error, and schedules exactly one more refresh. The path and
      style never change. */
  function UpdateTemperature(s: State, disk: TextFile.Disk, parseNum: NumberParser): (o: Outcome)
    ensures s.path == "" ==> o.state == s && o.error == Some(SelectFileFirst)
    ensures s.path != "" ==> o.state.pending == s.pending + 1
    ensures s.path != "" ==>
      o.state.display == LabelFor(ReadLatestTemperature(disk, s.path, parseNum))
    ensures s.path != "" ==> (o.error.Some? <==> o.state.display == NoData)
    ensures s.path != "" ==> o.error != Some(SelectFileFirst)
    ensures o.state.path == s.path && o.state.fontSize == s.fontSize && o.state.bgColor == s.bgColor
  {
    if s.path == "" then
      Outcome(s, Some(SelectFileFirst))
    else
      var latest := ReadLatestTemperature(disk, s.path, parseNum);
      var shown := if latest.Some? then s.(display := Shown(latest.value)) else s.(display := NoData);
      var error := if latest.Some? then None else Some(ReadFailed);
      Outcome(ScheduleUpdate(shown), error)
  }

  /** `select_file` with the dialog's answer (`""` when cancelled). A
      cancelled dialog changes nothing; otherwise the path is set and the
      display refreshed at once from the new file. */
  function SelectFile(s: State, choice: string, disk: TextFile.Disk, parseNum: NumberParser): (o: Outcome)
    ensures choice == "" ==> o.state == s && o.error.None?
    ensures choice != "" ==> o.state.path == choice
    ensures choice != "" ==> o.state.display == LabelFor(ReadLatestTemperature(disk, choice, parseNum))
    ensures choice != "" ==> o.state.pending == s.pending + 1
    ensures choice != "" ==> (o.error.Some? <==> o.state.display == NoData)
    ensures choice != "" ==> o.error != Some(SelectFileFirst)
    ensures o.state.fontSize == s.fontSize && o.state.bgColor == s.bgColor
  {
    if choice == "" then Outcome(s, None)
    else UpdateTemperature(s.(path := choice), disk, parseNum)
  }

  /** A scheduled refresh running: it is taken off the pending count and
      `update_temperature` runs. With a file selected the count is back where
      it was, and the label shows the file's current reading, or `--` with
      the read-failed error. Without one the callback does not re-arm, the
      count drops, and only the select-a-file error appears. The path and the
      style never change. */
  function TimerFires(s: State, disk: TextFile.Disk, parseNum: NumberParser): (o: Outcome)
    requires s.pending > 0
    ensures s.path != "" ==> o.state.pending == s.pending
    ensures s.path != "" ==>
      o.state.display == LabelFor(ReadLatestTemperature(disk, s.path, parseNum))
    ensures s.path != "" ==> (o.error.Some? <==> o.state.display == NoData)
    ensures s.path != "" ==> o.error != Some(SelectFileFirst)
    ensures s.path == "" ==> o.state.pending == s.pending - 1 && o.error == Some(SelectFileFirst)
    ensures s.path == "" ==> o.state.display == s.display
    ensures o.state.path == s.path && o.state.fontSize == s.fontSize && o.state.bgColor == s.bgColor
  {
    UpdateTemperature(s.(pending := s.pending - 1), disk, parseNum)
  }

  /** `change_font_size` with the prompt's answer: `None` when cancelled,
      otherwise an integer the prompt has already held to at least one. Only
      the font size can change, and only to the answer. */
  function ChangeFontSize(s: State, answer: Option<int>): (t: State)
    requires answer.Some? ==> answer.value >= 1
    ensures answer.None? ==> t == s
    ensures answer.Some? ==> t.fontSize == answer.value
    ensures t.(fontSize := s.fontSize) == s
  {
    match answer
    case None => s
    case Some(size) => s.(fontSize := size)
  }

  /** `change_bg_color` with the prompt's answer: a cancelled prompt or an
      empty answer changes nothing; any other text becomes the colour, with
      no further validation. Only the colour can change. */
  function ChangeBgColor(s: State, answer: Option<string>): (t: State)
    ensures answer.None? || answer == Some("") ==> t == s
    ensures answer.Some? && answer.value != "" ==> t.bgColor == answer.value
    ensures t.(bgColor := s.bgColor) == s
  {
    match answer
    case Some(color) => if color != "" then s.(bgColor := color) else s
    case None => s
  }

  /** What can happen to the window: a menu command (with the dialog's
      answer and the file system as it is at that moment) or a scheduled
      refresh coming due. */
  datatype Event =
    | Select(choice: string, disk: TextFile.Disk)
    | Refresh(disk: TextFile.Disk)
    | Tick(disk: TextFile.Disk)
    | FontSize(size: Option<int>)
    | BgColor(color: Option<string>)

  /** The toolkit only runs callbacks that were scheduled, and the font-size
      prompt only returns integers of at least one. */
  predicate Enabled(s: State, e: Event) {
    && (e.Tick? ==> s.pending > 0)
    && (e.FontSize? && e.size.Some? ==> e.size.value >= 1)
  }

  /** One event handled; every handler keeps the invariant. */
  function Apply(s: State, e: Event, parseNum: NumberParser): (o: Outcome)
    requires Enabled(s, e)
    ensures Inv(s) ==> Inv(o.state)
  {
    match e
    case Select(choice, disk) => SelectFile(s, choice, disk, parseNum)
    case Refresh(disk) => UpdateTemperature(s, disk, parseNum)
    case Tick(disk) => TimerFires(s, disk, parseNum)
    case FontSize(size) => Outcome(ChangeFontSize(s, size), None)
    case BgColor(color) => Outcome(ChangeBgColor(s, color), None)
  }

  /** A sequence of events handled in order; `None` if one of them could not
      have happened in the state it arrived in. */
  function Run(s: State, events: seq<Event>, parseNum: NumberParser): (r: Option<State>)
    ensures Inv(s) && r.Some? ==> Inv(r.value)
    decreases |events|
  {
    if events == [] then Some(s)
    else if Enabled(s, events[0]) then Run(Apply(s, events[0], parseNum).state, events[1..], parseNum)
    else None
  }

  /** Every state the window can reach keeps a font size of at least one and
      has a file selected whenever a refresh is pending. */
  lemma ReachableInv(events: seq<Event>, parseNum: NumberParser)
    ensures Run(Init(), events, parseNum).Some? ==>
      var t := Run(Init(), events, parseNum).value;
      t.fontSize >= 1 && (t.pending > 0 ==> t.path != "")
  {
  }

  /** In a reachable state a scheduled refresh always re-arms: it raises no
      select-a-file error and leaves the pending count as it was, so the
      timer never stops once started. */
  lemma TimerKeepsRunning(s: State, disk: TextFile.Disk, parseNum: NumberParser)
    requires Inv(s) && s.pending > 0
    ensures TimerFires(s, disk, parseNum).state.pending == s.pending
    ensures TimerFires(s, disk, parseNum).error != Some(SelectFileFirst)
  {
  }

  /** In a reachable state no event ever lowers the number of pending
      refreshes; a manual refresh or a new selection with a file raises it by
      one, so each of them starts an additional timer chain. */
  lemma PendingNeverDrops(s: State, e: Event, parseNum: NumberParser)
    requires Inv(s) && Enabled(s, e)
    ensures Apply(s, e, parseNum).state.pending >= s.pending
    ensures (e.Refresh? && s.path != "") || (e.Select? && e.choice != "") ==>
      Apply(s, e, parseNum).state.pending == s.pending + 1
  {
  }

  /** Once a file is selected the path never becomes unset again. */
  lemma PathStaysSet(s: State, e: Event, parseNum: NumberParser)
    requires Enabled(s, e) && s.path != ""
    ensures Apply(s, e, parseNum).state.path != ""
  {
  }

  /** Selecting a file leaves no trace of what was shown before: the new
      label and error depend only on the chosen file. */
  lemma SelectionForgetsPrevious(s1: State, s2: State, choice: string, disk: TextFile.Disk,
                                 parseNum: NumberParser)
    requires choice != ""
    ensures SelectFile(s1, choice, disk, parseNum).state.display
         == SelectFile(s2, choice, disk, parseNum).state.display
    ensures SelectFile(s1, choice, disk, parseNum).error
         == SelectFile(s2, choice, disk, parseNum).error
  {
  }

  /** What the window shows after a refresh with a file selected: the
      rendering of the file's reading and no dialog, or `--` together with
      the "Failed to read temperature data." dialog. */
  lemma RefreshShows(s: State, disk: TextFile.Disk, parseNum: NumberParser, format: Reading -> string)
    requires s.path != ""
    ensures var o := UpdateTemperature(s, disk, parseNum);
      match ReadLatestTemperature(disk, s.path, parseNum)
      case Some(v) => LabelText(o.state.display, format) == format(v) && o.error.None?
      case None => && LabelText(o.state.display, format) == NoDataText
                   && o.error == Some(ReadFailed)
                   && Message(o.error.value) == "Failed to read temperature data."
  {
  }

  /** A refresh with no file selected shows the "Please select a file first"
      dialog and leaves the label text as it was. */
  lemma RefreshWithoutFileShows(s: State, disk: TextFile.Disk, parseNum: NumberParser,
                                format: Reading -> string)
    requires s.path == ""
    ensures var o := UpdateTemperature(s, disk, parseNum);
      && o.error.Some? && Message(o.error.value) == "Please select a file first"
      && LabelText(o.state.display, format) == LabelText(s.display, format)
  {
  }

  /** Style changes never touch the reading side: path, label and pending
      refreshes stay as they are, and the other style field too. */
  lemma StyleIndependent(s: State, e: Event, parseNum: NumberParser)
    requires Enabled(s, e) && (e.FontSize? || e.BgColor?)
    ensures var t := Apply(s, e, parseNum).state;
      t.path == s.path && t.display == s.display && t.pending == s.pending
      && (e.FontSize? ==> t.bgColor == s.bgColor)
      && (e.BgColor? ==> t.fontSize == s.fontSize)
    ensures Apply(s, e, parseNum).error.None?
  {
  }
}

=== FILE: text_file.dfy ===
/**
 Reading a text file the way Python's `open(path, 'r')` followed by
 `readlines()` does: the decoded text first goes through universal-newline
 translation (`\r\n` and a lone `\r` both become `\n`), then is cut into
 lines, each line keeping its terminating `\n`.
 */
module TextFile {
  import opened Wrappers

  /** What the file system gives back for a path: the decoded text of the
      file, or `None` when opening, reading or decoding it fails. All the
      exception kinds Python may raise there are collapsed into `None`. */
  type Disk = string -> Option<string>

  /** Universal-newline translation: no carriage return survives, the text
      never grows, and text without carriage returns passes unchanged.
      `TranslateAppend` and `TranslatePieces` fix what becomes of each line
      break. */
  function TranslateNewlines(raw: string): (text: string)
    ensures '\r' !in text
    ensures |text| <= |raw|
    ensures '\r' !in raw ==> text == raw
  {
    TranslateFacts(raw);
    Translate(raw)
  }

  /** The translation itself: `\r\n` and a lone `\r` each become `\n`. */
  function Translate(raw: string): string {
    if raw == [] then ""
    else if raw[0] == '\r' then
      if |raw| > 1 && raw[1] == '\n' then "\n" + Translate(raw[2..])
      else "\n" + Translate(raw[1..])
    else
      [raw[0]] + Translate(raw[1..])
  }

  lemma {:induction false} TranslateFacts(raw: string)
    ensures '\r' !in Translate(raw)
    ensures |Translate(raw)| <= |raw|
    ensures '\r' !in raw ==> Translate(raw) == raw
  {
    if raw != [] {
      var n := if raw[0] == '\r' && |raw| > 1 && raw[1] == '\n' then 2 else 1;
      TranslateFacts(raw[n..]);
      if raw[0] != '\r' {
        assert raw == [raw[0]] + raw[1..];
      }
    }
  }

  /** Translation works piece by piece: text that does not end in a carriage
      return (so cannot be the first half of a `\r\n`) translates on its own. */
  lemma TranslateAppend(a: string, b: string)
    requires a == [] || a[|a| - 1] != '\r'
    ensures TranslateNewlines(a + b) == TranslateNewlines(a) + TranslateNewlines(b)
  {
    TranslateConcat(a, b);
  }

  lemma {:induction false} TranslateConcat(a: string, b: string)
    requires a == [] || a[|a| - 1] != '\r'
    ensures Translate(a + b) == Translate(a) + Translate(b)
  {
    if a == [] {
      assert a + b == b;
    } else {
      var n: nat := if a[0] == '\r' && a[1] == '\n' then 2 else 1;
      var head := if a[0] == '\r' then "\n" else [a[0]];
      SliceConcat(a, b, n);
      TranslateConcat(a[n..], b);
      TranslateUnfold(a + b, n, head);
      TranslateUnfold(a, n, head);
      ConcatAssoc(head, Translate(a[n..]), Translate(b));
    }
  }

  /** `Translate` on the first line break or character of `s`. */
  lemma TranslateUnfold(s: string, n: nat, head: string)
    requires s != [] && n <= |s|
    requires n == if s[0] == '\r' && |s| > 1 && s[1] == '\n' then 2 else 1
    requires head == if s[0] == '\r' then "\n" else [s[0]]
    ensures Translate(s) == head + Translate(s[n..])
  {
  }

  lemma SliceConcat(a: string, b: string, n: nat)
    requires 0 < n <= |a|
    ensures (a + b)[0] == a[0] && (|a| > 1 ==> (a + b)[1] == a[1])
    ensures (a + b)[n..] == a[n..] + b
  {
  }

  lemma ConcatAssoc(h: string, x: string, y: string)
    ensures h + (x + y) == (h + x) + y
  {
  }

  /** The pieces themselves: each of the three line breaks `\r\n`, `\r` and
      `\n` becomes one line feed, and every other character is kept.
      With `TranslateAppend` this fixes the translation of every text. */
  lemma TranslatePieces(c: char)
    ensures TranslateNewlines("\r\n") == "\n"
    ensures TranslateNewlines("\r") == "\n"
    ensures TranslateNewlines("\n") == "\n"
    ensures c != '\r' ==> TranslateNewlines([c]) == [c]
  {
  }

  /** A carriage return followed by anything but a line feed is a line break
      of its own. */
  lemma LoneCarriageReturn(b: string)
    requires b == [] || b[0] != '\n'
    ensures TranslateNewlines("\r" + b) == "\n" + TranslateNewlines(b)
  {
    var s := "\r" + b;
    assert s[0] == '\r';
    assert s[1..] == b;
  }

  /** A single line as `readlines()` produces it: non-empty, with no line
      feed except possibly its last character. */
  predicate IsLine(line: string) {
    |line| > 0 && forall k :: 0 <= k < |line| - 1 ==> line[k] != '\n'
  }

  /** A line that is followed by further lines ends with a line feed. */
  predicate Terminated(line: string) {
    |line| > 0 && line[|line| - 1] == '\n'
  }

  /** The shape of `readlines()` output: every element is a line, and every
      element but the last is terminated. */
  predicate WellFormed(lines: seq<string>) {
    && (forall i :: 0 <= i < |lines| ==> IsLine(lines[i]))
    && (forall i :: 0 <= i < |lines| - 1 ==> Terminated(lines[i]))
  }

  /** Python's `f.readlines()` on already translated text: there are no
      lines exactly when the text is empty, and the result is well formed.
      `ConcatReadLines` and `ReadLinesConcat` show that it is the inverse of
      `Concat`. */
  function ReadLines(text: string): (lines: seq<string>)
    ensures |lines| == 0 <==> |text| == 0
    ensures WellFormed(lines)
  {
    if text == [] then []
    else
      var rest := ReadLines(text[1..]);
      if text[0] == '\n' then ["\n"] + rest
      else if rest == [] then [[text[0]]]
      else
        var first := [text[0]] + rest[0];
        assert forall k :: 1 <= k < |first| ==> first[k] == rest[0][k - 1];
        [first] + rest[1..]
  }

  /** The lines of a file put back together: `"".join(lines)`. */
  function Concat(lines: seq<string>): string {
    if lines == [] then "" else lines[0] + Concat(lines[1..])
  }

  /** Putting the lines back together gives back the text. */
  lemma {:induction false} ConcatReadLines(text: string)
    ensures Concat(ReadLines(text)) == text
  {
    if text != [] {
      var rest := ReadLines(text[1..]);
      ConcatReadLines(text[1..]);
      assert text == [text[0]] + text[1..];
      if text[0] == '\n' {
        assert (["\n"] + rest)[1..] == rest;
      } else if rest != [] {
        var lines := [[text[0]] + rest[0]] + rest[1..];
        assert lines[1..] == rest[1..];
        assert Concat(rest) == rest[0] + Concat(rest[1..]);
      }
    }
  }

  /** A terminated line at the front of a text becomes the first element. */
  lemma {:induction false} ReadLinesPrepend(line: string, text: string)
    requires IsLine(line) && Terminated(line)
    ensures ReadLines(line + text) == [line] + ReadLines(text)
  {
    var s := line + text;
    assert s[0] == line[0];
    if |line| == 1 {
      assert line == "\n";
      assert s[1..] == text;
    } else {
      var tail := line[1..];
      assert IsLine(tail) && Terminated(tail) by {
        assert forall k :: 0 <= k < |tail| - 1 ==> tail[k] == line[k + 1];
      }
      assert s[1..] == tail + text;
      ReadLinesPrepend(tail, text);
      assert line[0] != '\n';
      assert [line[0]] + tail == line;
    }
  }

  /** Text without any line feed is a single line. */
  lemma {:induction false} ReadLinesSingle(line: string)
    requires IsLine(line) && !Terminated(line)
    ensures ReadLines(line) == [line]
  {
    assert line[0] != '\n';
    if |line| > 1 {
      var tail := line[1..];
      assert IsLine(tail) && !Terminated(tail) by {
        assert forall k :: 0 <= k < |tail| - 1 ==> tail[k] == line[k + 1];
      }
      ReadLinesSingle(tail);
      assert [line[0]] + tail == line;
    } else {
      assert line[1..] == [];
      assert line == [line[0]];
    }
  }

  /** Reading back well-formed lines after putting them together gives the
      same lines. */
  lemma {:induction false} ReadLinesConcat(lines: seq<string>)
    requires WellFormed(lines)
    ensures ReadLines(Concat(lines)) == lines
  {
    if lines != [] {
      if |lines| == 1 {
        assert Concat(lines) == lines[0] + Concat([]);
        assert lines[0] + "" == lines[0];
        if Terminated(lines[0]) {
          ReadLinesPrepend(lines[0], "");
        } else {
          ReadLinesSingle(lines[0]);
        }
      } else {
        assert WellFormed(lines[1..]) by {
          assert forall i :: 0 <= i < |lines| - 1 ==> lines[1..][i] == lines[i + 1];
        }
        ReadLinesConcat(lines[1..]);
        ReadLinesPrepend(lines[0], Concat(lines[1..]));
        assert lines == [lines[0]] + lines[1..];
      }
    }
  }

  /** The lines of the file at `path`, or `None` when it cannot be read. */
  function FileLines(disk: Disk, path: string): (r: Option<seq<string>>)
    ensures r.None? <==> disk(path).None?
    ensures r.Some? ==> WellFormed(r.value)
    ensures r.Some? ==> (r.value == [] <==> disk(path).value == [])
    ensures r.Some? ==> Concat(r.value) == TranslateNewlines(disk(path).value)
  {
    match disk(path)
    case None => None
    case Some(raw) =>
      var text := TranslateNewlines(raw);
      ConcatReadLines(text);
      assert text == [] <==> raw == [];
      Some(ReadLines(text))
  }
}

=== FILE: wrappers.dfy ===
/** The optional-value datatype used for Python's `None`-or-value returns. */
module Wrappers {

  /** `None` plays the role of Python's `None`; `Some(v)` carries a value. */
  datatype Option<+T> = None | Some(value: T)
}
